=== FILE: README.md ===
# DHT11/DHT22 sensor read over memory-mapped GPIO — a Dafny model

This project models the read path of a DHT11/DHT22 humidity and temperature
sensor on a BeagleBone-class board, as `dht_read` performs it, together with
the register layer and the bank-mapping cache it stands on:

- `mmio_registers.dfy` (`MmioRegisters`): the GPIO register page of one bank
  and the single-bit operations `mmio_set_input`, `mmio_set_output`,
  `mmio_set_low`, `mmio_set_high`, `mmio_set_level` and `mmio_input`. A
  32-bit register is a sequence of 32 bits, and the page is 1024 of them,
  indexed by byte offset divided by four.
- `mmio_map.dfy` (`MmioMap`): `mmio_get_gpio` and its four-slot cache of
  mapped banks. Opening `/dev/mem` and `mmap` are inputs, and the foreign
  calls issued are part of the result.
- `dht_common.dfy` (`DhtCommon`): the status codes, the millisecond splits
  of `block_wait_ms` and `sleep_ms`, their loops against an abstract clock
  and kernel, and the two scheduling-priority helpers.
- `dht_capture.dfy` (`DhtCapture`): the response wait and the 41 low/high
  busy-wait pairs with their 32000-poll ceiling. They are driven by an
  oracle of pin levels and specified by pulse-train predicates that do not
  depend on the loops.
- `dht_decode.dfy` (`DhtDecode`): the adaptive threshold, the MSB-first
  packing of 40 bits into five bytes, the checksum and the per-type
  scaling. Values are in integer tenths.
- `dht_read.dfy` (`DhtDriver`): `dht_read` as a whole. It returns the
  status, the outputs, the frame, the cache, the register page, the
  scheduling state and a trace of external events.

Points of the code the model follows as written:

- The threshold averages the low-phase counters `pulseCounts[2]`, `[4]`, ..,
  `[80]`, as the loop and its comment at lib/DHT11/dht11.c:97-101 say.
- Priority is raised right after the pin is set as output and before the
  start signal (lib/DHT11/dht11.c:54), so the response wait already runs
  under it.
- Every failure of `mmio_get_gpio` is reported as `DHT_ERR_GPIO`; the
  mapping layer's own code is not passed on (lib/DHT11/dht11.c:50).
- The outputs are zeroed at lib/DHT11/dht11.c:42-43, after the argument
  check, so `DHT_ERR_ARGUMENT` leaves them unwritten and every later error
  leaves them zero.
- The sensor type is only looked at after the checksum. An unknown type
  yields success with both outputs zero (lib/DHT11/dht11.c:119-129).
- Line 124 multiplies the temperature's high byte by `0x7F` instead of
  masking it. `DhtDriver.DhtRead` reports what that line computes. The
  intended decoding is `DhtDecode.Scale`, and `DhtRead`'s contract states
  exactly when the two differ. See "## Findings".

## Model

| member | source | states |
|---|---|---|
| MmioRegisters.ShiftedOne | lib/MMIO/mmio.h:74 | `1 << num` is the word with bit `num` set and no other bit |
| MmioRegisters.ValueOfSingleBit | lib/MMIO/mmio.h:92 | a one-hot word with bit `n` set has the numeric value 2^n |
| MmioRegisters.RegisterOffsetsInPage | lib/MMIO/mmio.h:45-49 | every register offset is 4-aligned and its word index (77, 78, 100, 101) lies inside the 1024-word page |
| MmioRegisters.SetInput | lib/MMIO/mmio.h:73-75 | sets bit `num` of the output-enable word; every other bit of that word and every other word is unchanged |
| MmioRegisters.SetOutput | lib/MMIO/mmio.h:82-84 | clears bit `num` of the output-enable word; every other bit and word is unchanged |
| MmioRegisters.SetLow | lib/MMIO/mmio.h:91-93 | the clear register holds exactly the one-hot mask of the pin, value 2^num; no other word changes |
| MmioRegisters.SetHigh | lib/MMIO/mmio.h:100-102 | the set register holds exactly the one-hot mask of the pin, value 2^num; no other word changes |
| MmioRegisters.SetLevel | lib/MMIO/mmio.h:110-116 | level 0 writes the pin mask to the clear register, any other level to the set register; nothing else changes |
| MmioRegisters.Input | lib/MMIO/mmio.h:123-125 | the read is non-zero exactly when the pin's data-in bit is set, then equals 2^num, and has no other bit set |
| MmioRegisters.DirectionIdempotent | lib/MMIO/mmio.h:73-84 | setting the same direction twice is the same as once |
| MmioRegisters.DirectionLastWins | lib/MMIO/mmio.h:73-84 | of two direction writes to a pin, the second decides the whole page |
| MmioRegisters.DirectionCommutes | lib/MMIO/mmio.h:73-84 | direction writes to different pins commute: two inputs, two outputs, and an output with an input |
| MmioRegisters.SetLevelMatchesLowHigh | lib/MMIO/mmio.h:110-116 | `mmio_set_level` is `mmio_set_low` for 0 and `mmio_set_high` otherwise, and repeating it changes nothing |
| MmioMap.Status.Code | lib/MMIO/mmio.h:38-43 | the return codes of `mmio_err_e` lie in -3..0 and are negative exactly on failure |
| MmioMap.StatusCodesDistinct | lib/MMIO/mmio.h:38-43 | the four return codes are distinct, so the integer identifies the outcome |
| MmioMap.GetGpio | lib/MMIO/mmio.c:64-98 | argument errors exactly for a NULL handle, bank outside 0..3 or pin outside 0..31, with no device access; a cached bank is served without device access; open failure is `MMIO_ERR_DEVMEM`, mmap failure `MMIO_ERR_MMAP`, both leaving the slot empty; an uncached bank with the device open is always opened and mapped at the bank's physical page, 4096 bytes, and the slot then holds exactly what `mmap` returned; success hands out the cached base and the pin; only the slot of `base` can change and a filled slot never changes |
| MmioMap.GetGpioIdempotent | lib/MMIO/mmio.c:71-97 | after a success, repeating the call succeeds with the same handle, no device access and no cache change |
| MmioMap.GetGpioRetriesAfterFailure | lib/MMIO/mmio.c:72-89 | after an open or mmap failure the slot is still empty, so the next call retries and succeeds when the device cooperates |
| MmioMap.GetGpioSharesMapping | lib/MMIO/mmio.c:93-95 | pins of one bank get the same mapped base |
| DhtCommon.StatusCodesDistinct | lib/DHT11/dht_common.h:36-42 | the five return codes are distinct, so the integer identifies the outcome |
| DhtCommon.BlockWaitDelta | lib/DHT11/dht_common.c:40-42 | the delay is a normalised timeval holding exactly `ms` milliseconds |
| DhtCommon.SleepRequest | lib/DHT11/dht_common.c:59-61 | the request is a normalised timespec holding exactly `ms` milliseconds |
| DhtCommon.NormalTimeValUnique | lib/DHT11/dht_common.c:40-42 | a normalised timeval is determined by its microsecond count, so the split is the only lossless one |
| DhtCommon.NormalTimeSpecUnique | lib/DHT11/dht_common.c:59-61 | the same for a timespec and its nanosecond count |
| DhtCommon.BlockWait | lib/DHT11/dht_common.c:38-56 | the loop stops at the first clock reading not before start + delay, and every earlier reading was before it |
| DhtCommon.SleepMs | lib/DHT11/dht_common.c:58-63 | the first request is the `ms` split; a call is repeated exactly while the previous one was interrupted, with that call's remaining time |
| DhtCommon.SetMaxPriority | lib/DHT11/dht_common.c:65-70 | FIFO at the maximum priority, which differs from the default state |
| DhtCommon.SetDefaultPriority | lib/DHT11/dht_common.c:72-77 | the time-shared policy at priority 0 |
| DhtCapture.PulseUnique | lib/DHT11/dht11.c:67-73 | a pulse has only one length: the first reading of the other level ends it |
| DhtCapture.PollSpecUnique | lib/DHT11/dht11.c:67-73 | the outcome of one wait is determined by the pin: a pulse below the ceiling and a run reaching it exclude each other |
| DhtCapture.WaitWhile | lib/DHT11/dht11.c:67-73 | a wait either counts a pulse below 32000 and ends on the reading after it, or sees the level for 32000 readings and gives up |
| DhtCapture.TrainPrefixUnique | lib/DHT11/dht11.c:76-92 | two pulse trains from the same reading agree on their common length |
| DhtCapture.StallExcludesTrain | lib/DHT11/dht11.c:76-92 | after a wait reached the ceiling, no complete train of 82 pulses below the ceiling exists from that start |
| DhtCapture.NextWait | lib/DHT11/dht11.c:78-91 | one wait either extends the train by the pulse on the level its counter times, or reports the stall |
| DhtCapture.CapturePairs | lib/DHT11/dht11.c:76-92 | the pair loop yields 82 counters below the ceiling forming the pin's pulse train, alternating low and high, or a stall after the counters so far |
| DhtCapture.TransmitsUnique | lib/DHT11/dht11.c:66-92 | a pin transmits at most one response and train |
| DhtCapture.StallUnique | lib/DHT11/dht11.c:76-92 | two stalls of the pair loop from the same reading stall at the same wait, which starts on the same reading |
| DhtCapture.TimesOutAfterExpiry | lib/DHT11/dht11.c:66-73 | when the line stays high through the whole response wait, the capture gives up after exactly 32000 readings |
| DhtCapture.TimesOutAfterStall | lib/DHT11/dht11.c:76-92 | when a pair wait stalls after a response, the capture gives up after exactly that wait's start plus 32000 readings |
| DhtCapture.TransmitsExcludesTimesOut | lib/DHT11/dht11.c:66-92 | a pin that sends a response and a complete train never makes the capture give up |
| DhtCapture.Acquire | lib/DHT11/dht11.c:66-92 | the capture succeeds exactly when the pin sent a response and 41 pairs below the ceiling, and then returns exactly that train and the number of readings; otherwise it times out, and the readings it took are exactly the ones the capture gives up after: 32000 of a high line for the response wait, or the stalled pair wait's start plus 32000 |
| DhtDecode.LowSumBelow | lib/DHT11/dht11.c:98-101 | with counters below 32000, 40 low phases sum to at most 40 * 31999, so the `uint32_t` sum cannot wrap |
| DhtDecode.ThresholdBetween | lib/DHT11/dht11.c:98-102 | the threshold lies between the shortest and the longest low phase of pairs 1..40 |
| DhtDecode.ComputeThreshold | lib/DHT11/dht11.c:98-102 | the wrapping `uint32_t` loop computes the integer mean of `pulseCounts[2]` .. `pulseCounts[80]`, which is below the ceiling |
| DhtDecode.ToFromBits | lib/DHT11/dht11.c:105-112 | MSB-first bits read back from their number are the same bits |
| DhtDecode.FromToBits | lib/DHT11/dht11.c:105-112 | a number below 2^n written as n MSB-first bits reads back as the number |
| DhtDecode.UnpackPack | lib/DHT11/dht11.c:105-112 | unpacking the five packed bytes recovers all 40 comparisons |
| DhtDecode.PackUnpack | lib/DHT11/dht11.c:105-112 | packing the bits of five bytes gives the bytes back |
| DhtDecode.PackStep | lib/DHT11/dht11.c:107-110 | `data[index] <<= 1` then `|= 1` appends one bit to the partial byte without losing a bit |
| DhtDecode.PackCounters | lib/DHT11/dht11.c:105-112 | the loop over counters 3, 5, .., 81 yields the MSB-first packing of the 40 comparisons with the threshold |
| DhtDecode.FrameBit | lib/DHT11/dht11.c:105-112 | bit j of byte k (bit 7 first) is set exactly when counter 3 + 16k + 2j is at least the threshold; equality reads as 1 |
| DhtDecode.ChecksumDetectsByteError | lib/DHT11/dht11.c:118 | a frame that passes the mod-256 checksum fails it after any change to one byte |
| DhtDecode.Dht22Humidity | lib/DHT11/dht11.c:123 | DHT22 humidity in tenths is the big-endian 16-bit value of bytes 0 and 1 |
| DhtDecode.Dht22Temperature | lib/DHT11/dht11.c:124-127 | the intended DHT22 temperature: sign-magnitude, negative only with bit 7 set, and within ±3276.7 degrees |
| DhtDecode.TemperatureRoundTrip | lib/DHT11/dht11.c:124-127 | decoding the bytes a DHT22 sends for a temperature gives that temperature |
| DhtDecode.TemperatureEncodeDecode | lib/DHT11/dht11.c:124-127 | the intended decoding is one-to-one except for the negative zero |
| DhtDecode.Dht22TemperatureAsWritten | lib/DHT11/dht11.c:124-127 | line 124 as written: negative exactly when bit 7 of the high byte is set, with a magnitude whose high part is the high byte times 0x7F and whose low byte is the low byte |
| DhtDecode.Dht22TemperatureAsWrittenWrong | lib/DHT11/dht11.c:124 | the as-written decoding agrees with the intended one exactly when the high byte is zero |
| DhtDecode.Dht22TemperatureCounterexample | lib/DHT11/dht11.c:123-124 | the frame 02 8A 01 04 reads 65.0 %RH and 3251.6 degrees as written, 26.0 degrees as intended |
| DhtDecode.ScaleAsWritten | lib/DHT11/dht11.c:119-128 | DHT11 reports whole units, DHT22 humidity is bytes 0-1 in tenths, any other type leaves both outputs zero |
| DhtDecode.Scale | lib/DHT11/dht11.c:119-128 | the intended scaling differs from the as-written one exactly for DHT22 frames with a non-zero high temperature byte |
| DhtDecode.Dht11FrameRoundTrip | lib/DHT11/dht11.c:118-121 | a DHT11 frame passes the checksum and scales to its values in tenths |
| DhtDecode.Dht22FrameRoundTrip | lib/DHT11/dht11.c:118-127 | a DHT22 frame passes the checksum and the intended scaling recovers the reading |
| DhtDecode.Dht11IgnoresDecimals | lib/DHT11/dht11.c:119-121 | a DHT11 reading depends on bytes 0 and 2 only |
| DhtDecode.Dht11Scale | lib/DHT11/dht11.c:119-121 | a DHT11 reports byte 0 as the humidity and byte 2 as the temperature, in whole units |
| DhtDriver.AcquiredTraceViews | lib/DHT11/dht11.c:50-95 | after acquisition the pin is driven output, high, low, input in that order; every reading comes after every pin write; the trace takes exactly its readings and ends at the default priority |
| DhtDriver.DecodeCounts | lib/DHT11/dht11.c:97-131 | the frame is the packing of the threshold comparisons; success exactly when the checksum holds, with scaled outputs; otherwise a checksum error with zero outputs |
| DhtDriver.Exchange | lib/DHT11/dht11.c:51-131 | after acquisition: the event order of the start signal and capture; the page afterwards has the pin set as input with other pins' directions unchanged, the set and clear registers each holding the pin's mask, and every other word unchanged; priority back to default; timeout exactly when the pin sent no complete train, after the readings the stalled wait allows; otherwise the decoded frame |
| DhtDriver.DhtRead | lib/DHT11/dht11.c:39-133 | NULL outputs give `DHT_ERR_ARGUMENT` with no device, pin, priority or output effect; any `mmio_get_gpio` failure gives `DHT_ERR_GPIO` with the acquisition as the only event; after acquisition the trace is exactly the acquisition, set output, raise priority, high, 500 ms sleep, low, 20 ms wait, set input, the readings and the priority restore; the page afterwards differs only in the pin's direction bit and the set and clear registers, each holding the pin's mask; timeout exactly when the sensor sent no complete train, after the readings the stalled wait allows; otherwise the frame is the train's and the checksum alone decides success; outputs are zero on every error after the argument check and scaled on success |

## Left out

- Device access: `open` of `/dev/mem` and `mmap` are inputs (`MmioMap.Device`). The file descriptor that is never closed and the `O_SYNC` passed as the mode argument are not modelled.
- Hardware: what writes to the set, clear and output-enable registers do to the pin is not modelled. The levels `dht_read` reads come from an oracle, `level(k)` being whether the k-th `mmio_input` returned non-zero.
- Time: `gettimeofday`, `timeradd`, `timercmp` and `clock_nanosleep` are abstract clocks and kernels given as parameters. In the driver's trace, the 500 ms sleep and the 20 ms block wait are events; the driver does not run them.
- DhtCommon.SleepMs: repeats on an interrupted call. It does not model the `errno == EINTR` test, which reads an `errno` that `clock_nanosleep` does not set.
- DhtCommon.SleepMs: requires that some call is not interrupted. With a kernel that interrupts every call, the source repeats the sleep forever.
- DhtCommon.BlockWait: requires that some clock reading reaches the deadline. With a clock that never advances, the source spins forever.
- Scheduling: `sched_setscheduler` and `sched_get_priority_max` are not modelled. The scheduling state is the last request made, and the maximum FIFO priority is a parameter.
- Floating point: outputs are exact integer tenths. The source's `/ 10.0f` rounds to the nearest `float` (651 / 10.0f is not exactly 65.1); that rounding is not modelled, and a negated zero reads as 0.
- The debug `fprintf` of the frame and the command-line program that calls `dht_read` are not part of this model.
- `volatile` accesses and concurrent callers are not modelled; the model is sequential.
- MmioRegisters.ShiftedOne: is the unsigned 32-bit one-hot word for every pin 0..31. The source's `1 << num` on a signed `int` is undefined for pin 31.
- MmioMap.GetGpio: assumes that `mmap` never returns address 0 for a bank.

## Findings

| source | as written | input that shows it | evidently intended | confidence | as-written member | corrected member |
|---|---|---|---|---|---|---|
| lib/DHT11/dht11.c:124 | `((data[2] * 0x7F) * 256 + data[3]) / 10.0f` multiplies the high temperature byte by 0x7F | frame 02 8A 01 04 (checksum 0x91): 3251.6 degrees instead of 26.0; every DHT22 frame with a non-zero high temperature byte reads wrong | `((data[2] & 0x7F) * 256 + data[3])`: the sign bit masked off, sign-magnitude decoding | high — not executed | DhtDecode.Dht22TemperatureAsWritten (shown by DhtDecode.Dht22TemperatureCounterexample and DhtDecode.Dht22TemperatureAsWrittenWrong) | DhtDecode.Dht22Temperature (proved by DhtDecode.TemperatureRoundTrip, used by DhtDecode.Scale) |

=== FILE: dht_capture.dfy ===
/** The busy-wait capture of `dht_read` (lib/DHT11/dht11.c:34-35, 66-92):
    the wait for the sensor's response and the 41 low/high pulse pairs.

    The pin is an oracle: `level(k)` is whether the k-th call of
    `mmio_input` in the read returned non-zero. Every call consumes one
    reading, including the one that ends a wait loop. Each wait counts the
    readings of the level it waits on and gives up when the count reaches
    `MaxCount`, which makes the capture a deterministic function of the
    oracle. What the capture reports is specified by the pulse-train
    predicates below, independently of the loops that compute it. */
module DhtCapture {

  /** `DHT_MAXCOUNT`: the iteration ceiling of every wait loop. */
  const MaxCount: nat := 32000
  /** `DHT_PULSES`: pulse pairs captured, the first being the sensor's
      response and the other 40 one data bit each. */
  const Pulses: nat := 41
  /** Number of counters, two per pair. */
  const Counters: nat := 2 * Pulses

  /** Readings `t` .. `t + n - 1` all have level `b`. */
  ghost predicate Run(level: nat -> bool, t: nat, n: nat, b: bool)
    decreases n
  {
    n == 0 || (level(t) == b && Run(level, t + 1, n - 1, b))
  }

  /** Every reading of a run has the run's level. */
  lemma {:induction false} RunAt(level: nat -> bool, t: nat, n: nat, b: bool, k: nat)
    requires Run(level, t, n, b) && t <= k < t + n
    ensures level(k) == b
    decreases n
  {
    if k > t {
      RunAt(level, t + 1, n - 1, b, k);
    }
  }

  /** One more reading of the same level extends a run. */
  lemma {:induction false} RunSnoc(level: nat -> bool, t: nat, n: nat, b: bool)
    requires Run(level, t, n, b) && level(t + n) == b
    ensures Run(level, t, n + 1, b)
    decreases n
  {
    if n > 0 {
      RunSnoc(level, t + 1, n - 1, b);
    }
  }

  /** A pulse of `n` readings at level `b`: the run and then one reading of
      the other level, the one that ends a wait on `b`. */
  ghost predicate Pulse(level: nat -> bool, t: nat, n: nat, b: bool) {
    Run(level, t, n, b) && level(t + n) != b
  }

  /** A pulse has one length: the first reading of the other level. */
  lemma PulseUnique(level: nat -> bool, t: nat, b: bool, c: nat, d: nat)
    requires Pulse(level, t, c, b) && Pulse(level, t, d, b)
    ensures c == d
  {
    if c < d {
      RunAt(level, t, d, b, t + c);
    } else if d < c {
      RunAt(level, t, c, b, t + d);
    }
  }

  /** A pulse shorter than `n` is not a run of `n`. */
  lemma PulseNotRun(level: nat -> bool, t: nat, b: bool, c: nat, n: nat)
    requires Pulse(level, t, c, b) && c < n
    ensures !Run(level, t, n, b)
  {
    if Run(level, t, n, b) {
      RunAt(level, t, n, b, t + c);
    }
  }

  /** The outcome of one wait loop: it saw the level change after `count`
      readings of the level it waited on, the next reading being `next`; or
      its count reached the ceiling, the next reading being `next`. */
  datatype Poll = Ended(count: nat, next: nat) | Expired(next: nat)

  /** What a wait on level `b` from reading `t` must report. */
  ghost predicate PollSpec(level: nat -> bool, b: bool, t: nat, r: Poll) {
    match r
    case Ended(count, next) => count < MaxCount && Pulse(level, t, count, b) && next == t + count + 1
    case Expired(next) => Run(level, t, MaxCount, b) && next == t + MaxCount
  }

  /** The specification leaves no choice. */
  lemma PollSpecUnique(level: nat -> bool, b: bool, t: nat, r: Poll, r': Poll)
    requires PollSpec(level, b, t, r) && PollSpec(level, b, t, r')
    ensures r == r'
  {
    if r.Ended? && r'.Ended? {
      PulseUnique(level, t, b, r.count, r'.count);
    } else if r.Ended? && r'.Expired? {
      PulseNotRun(level, t, b, r.count, MaxCount);
    } else if r.Expired? && r'.Ended? {
      PulseNotRun(level, t, b, r'.count, MaxCount);
    }
  }

  /** `while (mmio_input(pin) == b) { if (++count >= DHT_MAXCOUNT) give up; }`
      with the counter starting at zero, from reading `t`. */
  method WaitWhile(level: nat -> bool, b: bool, t: nat) returns (r: Poll)
    ensures PollSpec(level, b, t, r)
  {
    var count := 0;
    var k := t;
    while level(k) == b
      invariant count < MaxCount && k == t + count
      invariant Run(level, t, count, b)
      decreases MaxCount - count
    {
      RunSnoc(level, t, count, b);
      count := count + 1;
      if count >= MaxCount {
        return Expired(k + 1);
      }
      k := k + 1;
    }
    r := Ended(count, k + 1);
  }

  /** Whether the wait for counter `i` is a wait on high: the even counters
      time a low pulse, the odd ones a high pulse. */
  function WaitsOnHigh(i: nat): (high: bool) {
    i % 2 == 1
  }

  /** Every counter is below the ceiling. */
  ghost predicate Below(counts: seq<nat>) {
    forall i :: 0 <= i < |counts| ==> counts[i] < MaxCount
  }

  /** The pin produced the pulses of `counts` in turn, wait `i` starting at
      reading `starts[i]`: counter `i` is the length of a low pulse for even
      `i` and of a high pulse for odd `i`, and the next wait starts on the
      reading after the one that ended it. */
  ghost predicate Train(level: nat -> bool, starts: seq<nat>, counts: seq<nat>) {
    && |starts| == |counts| + 1
    && forall i :: 0 <= i < |counts| ==>
         Pulse(level, starts[i], counts[i], WaitsOnHigh(i)) && starts[i + 1] == starts[i] + counts[i] + 1
  }

  /** Appending the next wait keeps the train. */
  lemma TrainSnoc(level: nat -> bool, starts: seq<nat>, counts: seq<nat>, c: nat)
    requires Train(level, starts, counts)
    requires Pulse(level, starts[|counts|], c, WaitsOnHigh(|counts|))
    ensures Train(level, starts + [starts[|counts|] + c + 1], counts + [c])
  {
  }

  /** Two trains from the same reading agree on their common length. */
  lemma {:induction false} TrainPrefixUnique(level: nat -> bool, sa: seq<nat>, a: seq<nat>, sb: seq<nat>, b: seq<nat>, n: nat)
    requires Train(level, sa, a) && Train(level, sb, b) && sa[0] == sb[0]
    requires n <= |a| && n <= |b|
    ensures forall i :: 0 <= i <= n ==> sa[i] == sb[i]
    ensures forall i :: 0 <= i < n ==> a[i] == b[i]
  {
    if n > 0 {
      TrainPrefixUnique(level, sa, a, sb, b, n - 1);
      var j := n - 1;
      assert Pulse(level, sa[j], a[j], WaitsOnHigh(j));
      assert Pulse(level, sb[j], b[j], WaitsOnHigh(j));
      PulseUnique(level, sa[j], WaitsOnHigh(j), a[j], b[j]);
    }
  }

  /** The pin stalled: after the pulses of `done`, all below the ceiling,
      the next wait saw its level for as many readings as the ceiling
      allows. */
  ghost predicate Stalls(level: nat -> bool, starts: seq<nat>, done: seq<nat>) {
    && |done| < Counters
    && Below(done)
    && Train(level, starts, done)
    && Run(level, starts[|done|], MaxCount, WaitsOnHigh(|done|))
  }

  /** After a stall, no full train from the same reading is below the
      ceiling: the stalled wait's counter would have to reach it. */
  lemma StallExcludesTrain(level: nat -> bool, ds: seq<nat>, done: seq<nat>, starts: seq<nat>, counts: seq<nat>)
    requires Stalls(level, ds, done)
    requires |counts| == Counters && Train(level, starts, counts) && starts[0] == ds[0]
    ensures !Below(counts)
  {
    var j := |done|;
    TrainPrefixUnique(level, ds, done, starts, counts, j);
    assert Pulse(level, starts[j], counts[j], WaitsOnHigh(j));
    if Below(counts) {
      PulseNotRun(level, starts[j], WaitsOnHigh(j), counts[j], MaxCount);
    }
  }

  /** The outcome of the pair loop: the 82 counters with the reading each
      wait started on, the last entry being the next reading; or a wait
      reached the ceiling after the counters `done`, and the next reading. */
  datatype Capture =
    | Captured(starts: seq<nat>, counts: seq<nat>)
    | CaptureTimeout(starts: seq<nat>, done: seq<nat>, next: nat)

  /** Runs the wait for the next counter of a train, on the level that
      counter times: either the train grows by that pulse, or the wait
      stalls and the result says so. */
  method NextWait(level: nat -> bool, starts: seq<nat>, counts: seq<nat>) returns (r: Capture)
    requires |counts| < Counters && Below(counts) && Train(level, starts, counts)
    ensures r.Captured? ==>
              && |r.counts| == |counts| + 1 && Below(r.counts) && Train(level, r.starts, r.counts)
              && r.starts[..|starts|] == starts && r.counts[..|counts|] == counts
    ensures r.CaptureTimeout? ==>
              && r.starts == starts && r.done == counts
              && Stalls(level, starts, counts) && r.next == starts[|counts|] + MaxCount
  {
    var p := WaitWhile(level, WaitsOnHigh(|counts|), starts[|counts|]);
    if p.Expired? {
      return CaptureTimeout(starts, counts, p.next);
    }
    TrainSnoc(level, starts, counts, p.count);
    r := Captured(starts + [p.next], counts + [p.count]);
    assert r.starts[..|starts|] == starts && r.counts[..|counts|] == counts;
  }

  /** The pair loop of the source: for each of the 41 pairs, a wait while
      low counted in `pulseCounts[i]` and a wait while high counted in
      `pulseCounts[i + 1]`, from reading `t`. */
  method CapturePairs(level: nat -> bool, t: nat) returns (r: Capture)
    ensures |r.starts| >= 1 && r.starts[0] == t
    ensures r.Captured? ==> |r.counts| == Counters && Below(r.counts) && Train(level, r.starts, r.counts)
    ensures r.CaptureTimeout? ==>
              Stalls(level, r.starts, r.done) && r.next == r.starts[|r.done|] + MaxCount
  {
    var starts: seq<nat> := [t];
    var counts: seq<nat> := [];
    var i := 0;
    while i < Counters
      invariant i % 2 == 0 && i <= Counters && |counts| == i && |starts| == i + 1
      invariant starts[0] == t && Below(counts) && Train(level, starts, counts)
      decreases Counters - i
    {
      var lo := NextWait(level, starts, counts);
      if lo.CaptureTimeout? {
        return lo;
      }
      assert lo.starts[0] == starts[0];
      var hi := NextWait(level, lo.starts, lo.counts);
      if hi.CaptureTimeout? {
        return hi;
      }
      assert hi.starts[0] == lo.starts[0];
      starts, counts := hi.starts, hi.counts;
      i := i + 2;
    }
    r := Captured(starts, counts);
  }

  /** The sensor answered: a high pulse of `c0` readings before it pulled
      the line low, then, from the next reading, the 82 pulses of `counts`,
      every pulse shorter than the ceiling. */
  ghost predicate Transmits(level: nat -> bool, c0: nat, starts: seq<nat>, counts: seq<nat>) {
    && c0 < MaxCount
    && |counts| == Counters
    && Below(counts)
    && Pulse(level, 0, c0, true)
    && Train(level, starts, counts)
    && starts[0] == c0 + 1
  }

  /** A pin transmits at most one response and train. */
  lemma TransmitsUnique(level: nat -> bool, c0: nat, sa: seq<nat>, a: seq<nat>, c0': nat, sb: seq<nat>, b: seq<nat>)
    requires Transmits(level, c0, sa, a) && Transmits(level, c0', sb, b)
    ensures c0 == c0' && sa == sb && a == b
  {
    PulseUnique(level, 0, true, c0, c0');
    TrainPrefixUnique(level, sa, a, sb, b, Counters);
  }

  /** The response wait followed by the pair loop: the 82 counters and the
      number of readings taken, or a timeout after that many readings. */
  datatype Acquisition = Acquired(counts: seq<nat>, taken: nat) | AcquireTimeout(taken: nat)

  /** After a response pulse of `c0` readings below the ceiling, the pair
      loop from the next reading stalled after the pulses of `done`. */
  ghost predicate StallsAfterResponse(level: nat -> bool, c0: nat, ds: seq<nat>, done: seq<nat>) {
    && c0 < MaxCount && Pulse(level, 0, c0, true)
    && Stalls(level, ds, done) && ds[0] == c0 + 1
  }

  /** The capture gives up after `n` readings: either the response wait saw
      the line high for the whole ceiling, or the pair loop stalled after a
      response, and the stalled wait took the ceiling's readings from its
      start. */
  ghost predicate TimesOut(level: nat -> bool, n: nat) {
    || (Run(level, 0, MaxCount, true) && n == MaxCount)
    || exists c0: nat, ds: seq<nat>, done: seq<nat> ::
         StallsAfterResponse(level, c0, ds, done) && n == ds[|done|] + MaxCount
  }

  /** A stalled pair loop has one stall: its length and start are fixed by
      the pin. */
  lemma StallUnique(level: nat -> bool, sa: seq<nat>, a: seq<nat>, sb: seq<nat>, b: seq<nat>)
    requires Stalls(level, sa, a) && Stalls(level, sb, b) && sa[0] == sb[0]
    ensures |a| == |b| && sa[|a|] == sb[|b|]
  {
    if |a| < |b| {
      TrainPrefixUnique(level, sa, a, sb, b, |a|);
      assert Pulse(level, sb[|a|], b[|a|], WaitsOnHigh(|a|));
      PulseNotRun(level, sb[|a|], WaitsOnHigh(|a|), b[|a|], MaxCount);
    } else if |b| < |a| {
      TrainPrefixUnique(level, sa, a, sb, b, |b|);
      assert Pulse(level, sa[|b|], a[|b|], WaitsOnHigh(|b|));
      PulseNotRun(level, sa[|b|], WaitsOnHigh(|b|), a[|b|], MaxCount);
    } else {
      TrainPrefixUnique(level, sa, a, sb, b, |a|);
    }
  }

  /** When the response wait saw the line high for the whole ceiling, the
      capture gives up after exactly the ceiling's readings. */
  lemma TimesOutAfterExpiry(level: nat -> bool)
    requires Run(level, 0, MaxCount, true)
    ensures forall n :: TimesOut(level, n) <==> n == MaxCount
  {
    forall c0: nat, ds: seq<nat>, done: seq<nat> | StallsAfterResponse(level, c0, ds, done)
      ensures false
    {
      PulseNotRun(level, 0, true, c0, MaxCount);
    }
  }

  /** When the pair loop stalled after a response, the capture gives up
      after exactly the stalled wait's readings. */
  lemma TimesOutAfterStall(level: nat -> bool, c0: nat, ds: seq<nat>, done: seq<nat>)
    requires StallsAfterResponse(level, c0, ds, done)
    ensures forall n :: TimesOut(level, n) <==> n == ds[|done|] + MaxCount
  {
    PulseNotRun(level, 0, true, c0, MaxCount);
    forall c0': nat, ds': seq<nat>, done': seq<nat> | StallsAfterResponse(level, c0', ds', done')
      ensures ds'[|done'|] == ds[|done|]
    {
      PulseUnique(level, 0, true, c0, c0');
      StallUnique(level, ds, done, ds', done');
    }
  }

  /** A pin that transmits a full train never makes the capture give up. */
  lemma TransmitsExcludesTimesOut(level: nat -> bool, c0: nat, starts: seq<nat>, counts: seq<nat>)
    requires Transmits(level, c0, starts, counts)
    ensures forall n :: !TimesOut(level, n)
  {
    PulseNotRun(level, 0, true, c0, MaxCount);
    forall c0': nat, ds: seq<nat>, done: seq<nat> | StallsAfterResponse(level, c0', ds, done)
      ensures false
    {
      PulseUnique(level, 0, true, c0, c0');
      StallExcludesTrain(level, ds, done, starts, counts);
    }
  }

  /** The response wait and the pair loop together: the read succeeds
      exactly when the pin transmitted a response and 41 pairs below the
      ceiling, and then reports exactly that train. */
  method Acquire(level: nat -> bool) returns (r: Acquisition)
    ensures r.Acquired? ==> |r.counts| == Counters && Below(r.counts)
    ensures r.Acquired? ==> exists c0, starts :: Transmits(level, c0, starts, r.counts)
    ensures forall c0, starts, counts :: Transmits(level, c0, starts, counts) ==>
              r == Acquired(counts, starts[Counters])
    ensures r.AcquireTimeout? <==> !exists c0, starts, counts :: Transmits(level, c0, starts, counts)
    ensures forall n :: TimesOut(level, n) <==> r == AcquireTimeout(n)
  {
    var response := WaitWhile(level, true, 0);
    if response.Expired? {
      forall c0, starts, counts | Transmits(level, c0, starts, counts)
        ensures false
      {
        PulseNotRun(level, 0, true, c0, MaxCount);
      }
      TimesOutAfterExpiry(level);
      return AcquireTimeout(response.next);
    }
    var capture := CapturePairs(level, response.next);
    if capture.CaptureTimeout? {
      forall c0, starts, counts | Transmits(level, c0, starts, counts)
        ensures false
      {
        PulseUnique(level, 0, true, c0, response.count);
        StallExcludesTrain(level, capture.starts, capture.done, starts, counts);
      }
      TimesOutAfterStall(level, response.count, capture.starts, capture.done);
      return AcquireTimeout(capture.next);
    }
    r := Acquired(capture.counts, capture.starts[Counters]);
    assert Transmits(level, response.count, capture.starts, capture.counts);
    TransmitsExcludesTimesOut(level, response.count, capture.starts, capture.counts);
    forall c0, starts, counts | Transmits(level, c0, starts, counts)
      ensures r == Acquired(counts, starts[Counters])
    {
      TransmitsUnique(level, c0, starts, counts, response.count, capture.starts, capture.counts);
    }
  }
}

=== FILE: dht_common.dfy ===
/** Types shared by the sensor driver and its timing and scheduling helpers
    (lib/DHT11/dht_common.h, lib/DHT11/dht_common.c).

    Clocks and the kernel are inputs: `block_wait_ms` reads an abstract clock
    given as the sequence of values its successive `gettimeofday` calls
    return, and `sleep_ms` sees the sequence of answers its successive
    `clock_nanosleep` calls get. Scheduling is kept as the policy and
    priority last requested of the scheduler. */
module DhtCommon {

  /** Sensor types accepted by `dht_read`. */
  const Dht11: int := 11
  const Dht22: int := 22

  /** The return codes of `dht_read`. */
  datatype Status = Success | ErrGpio | ErrArgument | ErrChecksum | ErrTimeout {
    function Code(): (c: int)
      ensures c <= 0 && (c == 0 <==> Success?)
    {
      match this
      case Success => 0
      case ErrGpio => -1
      case ErrArgument => -2
      case ErrChecksum => -3
      case ErrTimeout => -4
    }
  }

  /** Different outcomes have different codes, so the caller can tell them
      apart from the integer alone. */
  lemma StatusCodesDistinct(s: Status, t: Status)
    ensures s.Code() == t.Code() ==> s == t
  {
  }

  /** `uint32_t`. */
  type U32 = n: nat | n < 0x1_0000_0000

  const UsecPerSec: nat := 1_000_000
  const NsecPerSec: nat := 1_000_000_000

  /** `struct timeval` and `struct timespec`, with non-negative fields. */
  datatype TimeVal = TimeVal(sec: nat, usec: nat)
  datatype TimeSpec = TimeSpec(sec: nat, nsec: nat)

  predicate NormalTimeVal(tv: TimeVal) {
    tv.usec < UsecPerSec
  }

  predicate NormalTimeSpec(ts: TimeSpec) {
    ts.nsec < NsecPerSec
  }

  /** The delay `block_wait_ms` adds to the current time: a normalised
      timeval holding exactly `ms` milliseconds. */
  function BlockWaitDelta(ms: U32): (tv: TimeVal)
    ensures NormalTimeVal(tv)
    ensures tv.sec * UsecPerSec + tv.usec == ms * 1000
  {
    TimeVal(ms / 1000, (ms % 1000) * 1000)
  }

  /** The request `sleep_ms` hands to the kernel: a normalised timespec
      holding exactly `ms` milliseconds. */
  function SleepRequest(ms: U32): (ts: TimeSpec)
    ensures NormalTimeSpec(ts)
    ensures ts.sec * NsecPerSec + ts.nsec == ms * 1_000_000
  {
    TimeSpec(ms / 1000, (ms % 1000) * 1_000_000)
  }

  /** A normalised timeval is determined by the microseconds it holds, so
      the split of `BlockWaitDelta` is the only lossless one. */
  lemma NormalTimeValUnique(a: TimeVal, b: TimeVal)
    requires NormalTimeVal(a) && NormalTimeVal(b)
    requires a.sec * UsecPerSec + a.usec == b.sec * UsecPerSec + b.usec
    ensures a == b
  {
  }

  /** The same for a normalised timespec and its nanoseconds. */
  lemma NormalTimeSpecUnique(a: TimeSpec, b: TimeSpec)
    requires NormalTimeSpec(a) && NormalTimeSpec(b)
    requires a.sec * NsecPerSec + a.nsec == b.sec * NsecPerSec + b.nsec
    ensures a == b
  {
  }

  /** `block_wait_ms`: `clock(k)` is the time, in microseconds, returned by
      the k-th reading of the clock (reading 0 is the one that fixes the
      deadline). The loop spins until a reading is not before the deadline
      and returns the index of that reading. It only needs the clock to reach
      the deadline at some reading. */
  method BlockWait(ms: U32, clock: nat -> nat) returns (last: nat)
    requires exists n :: clock(n) >= clock(0) + ms * 1000
    ensures clock(last) >= clock(0) + ms * 1000
    ensures forall k :: 0 <= k < last ==> clock(k) < clock(0) + ms * 1000
  {
    var delta := BlockWaitDelta(ms);
    var deadline := clock(0) + delta.sec * UsecPerSec + delta.usec;
    ghost var n: nat :| clock(n) >= deadline;
    last := 0;
    while clock(last) < deadline
      invariant last <= n
      invariant forall k :: 0 <= k < last ==> clock(k) < deadline
      decreases n - last
    {
      last := last + 1;
    }
  }

  /** What one `clock_nanosleep` call reports: the full sleep elapsed, the
      sleep was interrupted by a signal with the time still remaining, or
      some other failure. */
  datatype SleepReply = Slept | Interrupted(remaining: TimeSpec) | Failed

  /** `sleep_ms`: `kernel(i)` is the answer to the i-th call. The result is
      the sequence of requests issued. The first asks for `ms` milliseconds;
      a call is repeated exactly while the previous one was interrupted, and
      the repeat asks for the time that call left remaining. */
  method SleepMs(ms: U32, kernel: nat -> SleepReply) returns (requests: seq<TimeSpec>)
    requires exists n :: !kernel(n).Interrupted?
    ensures |requests| >= 1
    ensures requests[0].sec * NsecPerSec + requests[0].nsec == ms * 1_000_000
    ensures NormalTimeSpec(requests[0])
    ensures forall i :: 0 <= i < |requests| - 1 ==>
              kernel(i).Interrupted? && requests[i + 1] == kernel(i).remaining
    ensures !kernel(|requests| - 1).Interrupted?
  {
    var sleep := SleepRequest(ms);
    requests := [sleep];
    ghost var n: nat :| !kernel(n).Interrupted?;
    var i := 0;
    while kernel(i).Interrupted?
      invariant i <= n
      invariant |requests| == i + 1
      invariant requests[0] == SleepRequest(ms)
      invariant forall k :: 0 <= k < i ==> kernel(k).Interrupted? && requests[k + 1] == kernel(k).remaining
      decreases n - i
    {
      sleep := kernel(i).remaining;
      requests := requests + [sleep];
      i := i + 1;
    }
  }

  /** Scheduling policies the driver requests. */
  datatype Policy = Other | Fifo

  /** The policy and priority last requested of the scheduler. */
  datatype Sched = Sched(policy: Policy, priority: int)

  const DefaultSched: Sched := Sched(Other, 0)

  /** `set_max_priority`: FIFO at the largest FIFO priority, which the source
      asks the scheduler for (`fifoMax`). */
  function SetMaxPriority(fifoMax: int): (s: Sched)
    ensures s.policy == Fifo && s.priority == fifoMax && s != DefaultSched
  {
    Sched(Fifo, fifoMax)
  }

  /** `set_default_priority`: back to the time-shared policy at priority 0. */
  function SetDefaultPriority(): (s: Sched)
    ensures s.policy == Other && s.priority == 0
  {
    DefaultSched
  }
}

=== FILE: dht_decode.dfy ===
/** Decoding of the captured counters into a sensor reading
    (lib/DHT11/dht11.c:97-131): the adaptive threshold, the MSB-first
    packing of 40 comparison bits into five bytes, the checksum and the
    per-type scaling.

    Readings are integers in tenths (tenths of %RH and of a degree Celsius)
    where the source produces `float`s. The source divides by `10.0f`,
    which rounds (651 / 10.0f is not 65.1); the model keeps the exact
    number of tenths instead. */
module DhtDecode {
  import opened DhtCommon
  import opened DhtCapture
  import MmioRegisters

  /** `uint8_t`. */
  type Byte = b: nat | b < 256

  /** Number of data bits and bytes in a frame. */
  const DataBits: nat := Pulses - 1
  const DataBytes: nat := 5

  const U32Modulus: nat := 0x1_0000_0000

  // ---------------------------------------------------------------------
  // Threshold (lib/DHT11/dht11.c:98-102)
  // ---------------------------------------------------------------------

  /** The sum of the low counters `counts[2]`, `counts[4]`, ..,
      `counts[2 * n]`: the low phases of pairs 1..n. Pair 0 is the sensor's
      response and is left out. */
  function LowSum(counts: seq<nat>, n: nat): (sum: nat)
    requires 2 * n < |counts|
  {
    if n == 0 then 0 else LowSum(counts, n - 1) + counts[2 * n]
  }

  /** The threshold the source computes: the integer mean of the low
      phases of the 40 data pairs. */
  function Threshold(counts: seq<nat>): (th: nat)
    requires |counts| == Counters
  {
    LowSum(counts, DataBits) / DataBits
  }

  /** With every counter below the ceiling, `n` low phases sum to less
      than `n` times the ceiling. */
  lemma {:induction false} LowSumBelow(counts: seq<nat>, n: nat)
    requires 2 * n < |counts| && Below(counts)
    ensures LowSum(counts, n) <= n * (MaxCount - 1)
  {
    if n > 0 {
      LowSumBelow(counts, n - 1);
      assert counts[2 * n] < MaxCount;
    }
  }

  /** If every low phase of pairs 1..n is at least `m`, so is their mean. */
  lemma {:induction false} LowSumAtLeast(counts: seq<nat>, n: nat, m: nat)
    requires 2 * n < |counts|
    requires forall k :: 1 <= k <= n ==> counts[2 * k] >= m
    ensures LowSum(counts, n) >= n * m
  {
    if n > 0 {
      LowSumAtLeast(counts, n - 1, m);
      assert counts[2 * n] >= m;
    }
  }

  /** If every low phase of pairs 1..n is at most `m`, so is their mean. */
  lemma {:induction false} LowSumAtMost(counts: seq<nat>, n: nat, m: nat)
    requires 2 * n < |counts|
    requires forall k :: 1 <= k <= n ==> counts[2 * k] <= m
    ensures LowSum(counts, n) <= n * m
  {
    if n > 0 {
      LowSumAtMost(counts, n - 1, m);
      assert counts[2 * n] <= m;
    }
  }

  /** The threshold lies between the shortest and the longest low phase of
      the data pairs: some low phase is at most the threshold and some is
      at least the threshold. */
  lemma ThresholdBetween(counts: seq<nat>)
    requires |counts| == Counters
    ensures exists k :: 1 <= k <= DataBits && counts[2 * k] <= Threshold(counts)
    ensures exists k :: 1 <= k <= DataBits && counts[2 * k] >= Threshold(counts)
  {
    var th := Threshold(counts);
    var sum := LowSum(counts, DataBits);
    if forall k :: 1 <= k <= DataBits ==> counts[2 * k] > th {
      LowSumAtLeast(counts, DataBits, th + 1);
      assert false;
    }
    if forall k :: 1 <= k <= DataBits ==> counts[2 * k] < th {
      LowSumAtMost(counts, DataBits, th - 1);
      assert false;
    }
  }

  /** Lines 98-102: the sum is accumulated in a `uint32_t`, written here
      with its wrap-around, and divided by the 40 data pairs. With every
      counter below the ceiling the sum stays below 40 * 32000, so it never
      wraps and the result is the mean. */
  method ComputeThreshold(counts: seq<nat>) returns (th: U32)
    requires |counts| == Counters && Below(counts)
    ensures th == Threshold(counts)
    ensures th < MaxCount
  {
    var sum: U32 := 0;
    var i := 2;
    while i < Counters
      invariant 2 <= i <= Counters && i % 2 == 0
      invariant sum == LowSum(counts, i / 2 - 1)
      decreases Counters - i
    {
      LowSumBelow(counts, i / 2);
      sum := (sum + counts[i]) % U32Modulus;
      i := i + 2;
    }
    LowSumBelow(counts, DataBits);
    th := sum / DataBits;
  }

  // ---------------------------------------------------------------------
  // Bits and bytes (lib/DHT11/dht11.c:105-112)
  // ---------------------------------------------------------------------

  /** Data bit `j` is the comparison of the high phase of pair `j + 1`,
      counter `2 * j + 3`, with the threshold. */
  function FrameBits(counts: seq<nat>, th: nat): (bits: seq<bool>)
    requires |counts| == Counters
    ensures |bits| == DataBits
  {
    seq(DataBits, j requires 0 <= j < DataBits => counts[2 * j + 3] >= th)
  }

  /** The number an MSB-first sequence of bits denotes. */
  function FromBits(bits: seq<bool>): (v: nat)
  {
    if |bits| == 0 then 0
    else 2 * FromBits(bits[..|bits| - 1]) + (if bits[|bits| - 1] then 1 else 0)
  }

  /** The `n` low bits of `v`, MSB first. */
  function ToBits(v: nat, n: nat): (bits: seq<bool>)
    ensures |bits| == n
  {
    if n == 0 then [] else ToBits(v / 2, n - 1) + [v % 2 == 1]
  }

  /** `n` bits denote a number below 2^n. */
  lemma {:induction false} FromBitsBound(bits: seq<bool>)
    ensures FromBits(bits) < MmioRegisters.Pow2(|bits|)
    decreases |bits|
  {
    if |bits| > 0 {
      FromBitsBound(bits[..|bits| - 1]);
    }
  }

  /** Reading bits back from their number gives the bits. */
  lemma {:induction false} ToFromBits(bits: seq<bool>)
    ensures ToBits(FromBits(bits), |bits|) == bits
    decreases |bits|
  {
    if |bits| > 0 {
      var init := bits[..|bits| - 1];
      ToFromBits(init);
      var v := FromBits(bits);
      assert v / 2 == FromBits(init) && v % 2 == 1 <==> bits[|bits| - 1];
      assert bits == init + [bits[|bits| - 1]];
    }
  }

  /** Writing a number below 2^n as `n` bits and reading it back gives the
      number. */
  lemma {:induction false} FromToBits(v: nat, n: nat)
    requires v < MmioRegisters.Pow2(n)
    ensures FromBits(ToBits(v, n)) == v
    decreases n
  {
    if n > 0 {
      FromToBits(v / 2, n - 1);
      var bits := ToBits(v, n);
      assert bits[..n - 1] == ToBits(v / 2, n - 1);
    }
  }

  /** The byte eight MSB-first bits denote. */
  function ByteOf(bits: seq<bool>): (b: Byte)
    requires |bits| == 8
  {
    FromBitsBound(bits);
    FromBits(bits)
  }

  /** Byte `k` is made of data bits `8 * k` .. `8 * k + 7`, the first of
      them the most significant. */
  function Pack(bits: seq<bool>): (data: seq<Byte>)
    requires |bits| == DataBits
    ensures |data| == DataBytes
  {
    seq(DataBytes, k requires 0 <= k < DataBytes => ByteOf(bits[8 * k .. 8 * k + 8]))
  }

  /** The inverse of `Pack`: the 40 bits of five bytes, MSB first. */
  function Unpack(data: seq<Byte>): (bits: seq<bool>)
    requires |data| == DataBytes
    ensures |bits| == DataBits
  {
    seq(DataBits, j requires 0 <= j < DataBits => ToBits(data[j / 8], 8)[j % 8])
  }

  /** Unpacking the packed bits recovers every comparison. */
  lemma UnpackPack(bits: seq<bool>)
    requires |bits| == DataBits
    ensures Unpack(Pack(bits)) == bits
  {
    forall j | 0 <= j < DataBits
      ensures Unpack(Pack(bits))[j] == bits[j]
    {
      UnpackPackBit(bits, j);
    }
  }

  lemma UnpackPackBit(bits: seq<bool>, j: nat)
    requires |bits| == DataBits && j < DataBits
    ensures ToBits(Pack(bits)[j / 8], 8)[j % 8] == bits[j]
  {
    var k := j / 8;
    var chunk := bits[8 * k .. 8 * k + 8];
    assert Pack(bits)[k] == FromBits(chunk);
    ToFromBits(chunk);
    assert chunk[j % 8] == bits[j];
  }

  /** Packing the unpacked bits gives the bytes back. */
  lemma PackUnpack(data: seq<Byte>)
    requires |data| == DataBytes
    ensures Pack(Unpack(data)) == data
  {
    var bits := Unpack(data);
    forall k | 0 <= k < DataBytes
      ensures Pack(bits)[k] == data[k]
    {
      var chunk := bits[8 * k .. 8 * k + 8];
      assert chunk == ToBits(data[k], 8) by {
        forall i | 0 <= i < 8
          ensures chunk[i] == ToBits(data[k], 8)[i]
        {
          assert chunk[i] == bits[8 * k + i];
          assert (8 * k + i) / 8 == k && (8 * k + i) % 8 == i;
        }
      }
      FromToBits(data[k], 8);
    }
  }

  /** `b <<= 1` on a `uint8_t`: the shifted value truncated to eight bits. */
  function ShiftLeft(b: Byte): (r: Byte) {
    (b * 2) % 256
  }

  /** `b |= 1`. */
  function SetLowBit(b: Byte): (r: Byte) {
    if b % 2 == 0 then b + 1 else b
  }

  /** One step of the packing loop appends a bit to a partial byte: the
      shift never loses a bit while fewer than eight are in. */
  lemma {:induction false} PackStep(bits: seq<bool>, s: nat, j: nat)
    requires s <= j < |bits| && j - s < 8
    ensures FromBits(bits[s .. j]) < 128
    ensures FromBits(bits[s .. j + 1]) ==
              (var b := ShiftLeft(FromBits(bits[s .. j])); if bits[j] then SetLowBit(b) else b)
  {
    var part := bits[s .. j];
    FromBitsBound(part);
    assert MmioRegisters.Pow2(|part|) <= 128 by {
      Pow2Mono(|part|, 7);
    }
    assert bits[s .. j + 1][..|part|] == part;
  }

  lemma {:induction false} Pow2Mono(m: nat, n: nat)
    requires m <= n
    ensures MmioRegisters.Pow2(m) <= MmioRegisters.Pow2(n)
    decreases n
  {
    if m < n {
      Pow2Mono(m, n - 1);
    }
  }

  /** After the first `j` bits of the packing loop: the bytes before the
      current one are complete, the current one holds the bits of it seen so
      far, and the bytes after it are still zero. */
  ghost predicate PackedUpTo(data: seq<Byte>, bits: seq<bool>, j: nat)
    requires |bits| == DataBits && j <= DataBits
  {
    && |data| == DataBytes
    && (forall k :: 0 <= k < j / 8 ==> data[k] == ByteOf(bits[8 * k .. 8 * k + 8]))
    && (j / 8 < DataBytes ==> data[j / 8] == FromBits(bits[8 * (j / 8) .. j]))
    && (forall k :: j / 8 < k < DataBytes ==> data[k] == 0)
  }

  /** One bit of the packing loop: shift the current byte, then set its low
      bit for a one. */
  function PackBit(data: seq<Byte>, j: nat, bit: bool): (packed: seq<Byte>)
    requires |data| == DataBytes && j < DataBits
  {
    var b := ShiftLeft(data[j / 8]);
    data[j / 8 := if bit then SetLowBit(b) else b]
  }

  lemma PackedStep(data: seq<Byte>, bits: seq<bool>, j: nat)
    requires |bits| == DataBits && j < DataBits && PackedUpTo(data, bits, j)
    ensures PackedUpTo(PackBit(data, j, bits[j]), bits, j + 1)
  {
    PackStep(bits, 8 * (j / 8), j);
  }

  /** Lines 105-112: for each odd counter `i`, byte `(i - 3) / 16` is
      shifted left and gets a one bit when the counter is at least the
      threshold. The result is the packing of the comparison bits. */
  method PackCounters(counts: seq<nat>, th: nat) returns (data: seq<Byte>)
    requires |counts| == Counters
    ensures data == Pack(FrameBits(counts, th))
  {
    ghost var bits := FrameBits(counts, th);
    data := [0, 0, 0, 0, 0];
    var i := 3;
    ghost var j := 0;
    while i < Counters
      invariant j <= DataBits && i == 2 * j + 3
      invariant PackedUpTo(data, bits, j)
      decreases Counters - i
    {
      var index := (i - 3) / 16;
      assert index == j / 8;
      ghost var before := data;
      assert bits[j] == (counts[i] >= th);
      PackedStep(before, bits, j);
      data := data[index := ShiftLeft(data[index])];
      if counts[i] >= th {
        data := data[index := SetLowBit(data[index])];
        assert data == PackBit(before, j, true);
      } else {
        assert data == PackBit(before, j, false);
      }
      assert data == PackBit(before, j, bits[j]);
      i := i + 2;
      j := j + 1;
    }
    PackedAll(data, bits);
  }

  /** Once all 40 bits are in, the bytes are the packing. */
  lemma PackedAll(data: seq<Byte>, bits: seq<bool>)
    requires |bits| == DataBits && PackedUpTo(data, bits, DataBits)
    ensures data == Pack(bits)
  {
  }

  /** The frame the source decodes from a capture. */
  function Frame(counts: seq<nat>): (data: seq<Byte>)
    requires |counts| == Counters
    ensures |data| == DataBytes
  {
    Pack(FrameBits(counts, Threshold(counts)))
  }

  /** Bit `j` of byte `k` (bit 7 being the most significant) is set
      exactly when counter `3 + 16 * k + 2 * j` reached the threshold; a
      counter equal to the threshold reads as a one. */
  lemma FrameBit(counts: seq<nat>, k: nat, j: nat)
    requires |counts| == Counters && k < DataBytes && j < 8
    ensures ToBits(Frame(counts)[k], 8)[j] <==> counts[3 + 16 * k + 2 * j] >= Threshold(counts)
  {
    var bits := FrameBits(counts, Threshold(counts));
    assert (8 * k + j) / 8 == k && (8 * k + j) % 8 == j;
    UnpackPackBit(bits, 8 * k + j);
  }

  // ---------------------------------------------------------------------
  // Checksum (lib/DHT11/dht11.c:118)
  // ---------------------------------------------------------------------

  /** The last byte is the low byte of the sum of the other four
      (`& 0xFF` on a non-negative sum is `% 256`). */
  predicate ChecksumOk(data: seq<Byte>)
    requires |data| == DataBytes
  {
    data[4] == (data[0] as int + data[1] + data[2] + data[3]) % 256
  }

  /** The checksum catches every corruption of a single byte. */
  lemma ChecksumDetectsByteError(data: seq<Byte>, k: nat, v: Byte)
    requires |data| == DataBytes && ChecksumOk(data)
    requires k < DataBytes && v != data[k]
    ensures !ChecksumOk(data[k := v])
  {
    var d := data[k := v];
    var s := data[0] as int + data[1] + data[2] + data[3];
    var s' := d[0] as int + d[1] + d[2] + d[3];
    if k < 4 {
      assert s' - s == v - data[k];
      assert -256 < s' - s < 256 && s' - s != 0;
    }
  }

  // ---------------------------------------------------------------------
  // Scaling (lib/DHT11/dht11.c:119-128)
  // ---------------------------------------------------------------------

  /** Humidity and temperature in tenths. */
  datatype Reading = Reading(humidity: int, temperature: int)

  /** The outputs as `dht_read` zeroes them. */
  const NoReading: Reading := Reading(0, 0)

  /** Bit 7 of a byte (`b & 0x80`): the sign of a DHT22 temperature. */
  predicate SignBit(b: Byte) {
    b >= 0x80
  }

  /** DHT22 humidity: the big-endian 16-bit value of the first two bytes. */
  function Dht22Humidity(d0: Byte, d1: Byte): (h: nat)
    ensures h < 0x1_0000 && h / 256 == d0 && h % 256 == d1
  {
    d0 * 256 + d1
  }

  /** DHT22 temperature as line 124 computes it: the high byte is
      multiplied by 0x7F, then the result is negated when bit 7 is set. */
  function Dht22TemperatureAsWritten(d2: Byte, d3: Byte): (t: int)
    ensures t < 0 <==> SignBit(d2)
    ensures var m := if t < 0 then -t else t;
            m / 256 == 0x7F * d2 && m % 256 == d3
  {
    var magnitude := d2 * 0x7F * 256 + d3;
    if SignBit(d2) then -magnitude else magnitude
  }

  /** DHT22 temperature as the sensor encodes it: sign and magnitude, with
      bit 7 of the high byte the sign and the other 15 bits the magnitude
      (`d2 & 0x7F`). */
  function Dht22Temperature(d2: Byte, d3: Byte): (t: int)
    ensures -0x8000 < t < 0x8000
    ensures t < 0 ==> SignBit(d2)
    ensures SignBit(d2) ==> t <= 0
  {
    var magnitude := (d2 % 0x80) * 256 + d3;
    if SignBit(d2) then -magnitude else magnitude
  }

  /** The two high bytes a DHT22 sends for a temperature in tenths. */
  function EncodeTemperature(t: int): (bytes: (Byte, Byte))
    requires -0x8000 < t < 0x8000
  {
    var m := if t < 0 then -t else t;
    ((if t < 0 then 0x80 else 0) + m / 256, m % 256)
  }

  /** Sign-magnitude decoding inverts the sensor's encoding. */
  lemma TemperatureRoundTrip(t: int)
    requires -0x8000 < t < 0x8000
    ensures var (d2, d3) := EncodeTemperature(t); Dht22Temperature(d2, d3) == t
  {
  }

  /** And it is one-to-one except for the negative zero, which reads 0. */
  lemma TemperatureEncodeDecode(d2: Byte, d3: Byte)
    requires !(d2 == 0x80 && d3 == 0)
    ensures EncodeTemperature(Dht22Temperature(d2, d3)) == (d2, d3)
  {
    SplitBytes(d2 % 0x80, d3);
  }

  /** The high and low byte of a 16-bit value. */
  lemma SplitBytes(hi: nat, lo: Byte)
    ensures (hi * 256 + lo) / 256 == hi && (hi * 256 + lo) % 256 == lo
  {
  }

  /** Line 124 agrees with the intended decoding exactly when the high
      byte is zero, that is for 0.0 .. 25.5 degrees. */
  lemma Dht22TemperatureAsWrittenWrong(d2: Byte, d3: Byte)
    ensures Dht22TemperatureAsWritten(d2, d3) == Dht22Temperature(d2, d3) <==> d2 == 0
  {
    if d2 != 0 {
      if SignBit(d2) {
        assert d2 * 0x7F * 256 + d3 > (d2 % 0x80) * 256 + d3;
      } else {
        assert d2 * 0x7F * 256 > d2 * 256;
      }
    }
  }

  /** The frame 02 8A 01 04 (65.0 %RH, 26.0 degrees) reads 3251.6 degrees
      as written. */
  lemma Dht22TemperatureCounterexample()
    ensures Dht22TemperatureAsWritten(0x01, 0x04) == 32516
    ensures Dht22Temperature(0x01, 0x04) == 260
    ensures Dht22Humidity(0x02, 0x8A) == 650
  {
  }

  /** Lines 119-128 as written, in tenths: a DHT11 reports whole units in
      bytes 0 and 2; a DHT22 reports tenths in bytes 0-1 and 2-3; any other
      type leaves both outputs at zero. */
  function ScaleAsWritten(sensor: int, data: seq<Byte>): (r: Reading)
    requires |data| == DataBytes
    ensures sensor == Dht11 ==> r.humidity % 10 == 0 && r.temperature % 10 == 0
    ensures sensor == Dht22 ==> r.humidity == Dht22Humidity(data[0], data[1])
    ensures sensor != Dht11 && sensor != Dht22 ==> r == NoReading
  {
    if sensor == Dht11 then Reading(data[0] as int * 10, data[2] as int * 10)
    else if sensor == Dht22 then
      Reading(Dht22Humidity(data[0], data[1]), Dht22TemperatureAsWritten(data[2], data[3]))
    else NoReading
  }

  /** The same with the intended DHT22 temperature decoding. */
  function Scale(sensor: int, data: seq<Byte>): (r: Reading)
    requires |data| == DataBytes
    ensures sensor == Dht22 ==> -0x8000 < r.temperature < 0x8000
    ensures sensor != Dht22 ==> r == ScaleAsWritten(sensor, data)
    ensures r == ScaleAsWritten(sensor, data) <==> sensor != Dht22 || data[2] == 0
  {
    Dht22TemperatureAsWrittenWrong(data[2], data[3]);
    if sensor == Dht22 then
      Reading(Dht22Humidity(data[0], data[1]), Dht22Temperature(data[2], data[3]))
    else ScaleAsWritten(sensor, data)
  }

  /** The frame a DHT11 sends for whole humidity `h` and temperature `t`:
      the decimal bytes are zero and the last byte is the checksum. */
  function Dht11Frame(h: Byte, t: Byte): (data: seq<Byte>)
    ensures |data| == DataBytes
  {
    [h, 0, t, 0, (h + t) % 256]
  }

  /** The frame a DHT22 sends for a reading in tenths. */
  function Dht22Frame(r: Reading): (data: seq<Byte>)
    requires 0 <= r.humidity < 0x1_0000 && -0x8000 < r.temperature < 0x8000
    ensures |data| == DataBytes
  {
    var (d2, d3) := EncodeTemperature(r.temperature);
    var d0, d1 := r.humidity / 256, r.humidity % 256;
    [d0, d1, d2, d3, (d0 + d1 + d2 + d3) % 256]
  }

  /** A well-formed DHT11 frame passes the checksum and scales to its
      values in tenths. */
  lemma Dht11FrameRoundTrip(h: Byte, t: Byte)
    ensures ChecksumOk(Dht11Frame(h, t))
    ensures ScaleAsWritten(Dht11, Dht11Frame(h, t)) == Reading(10 * h, 10 * t)
  {
  }

  /** A well-formed DHT22 frame passes the checksum and the intended
      scaling recovers the reading. */
  lemma Dht22FrameRoundTrip(r: Reading)
    requires 0 <= r.humidity < 0x1_0000 && -0x8000 < r.temperature < 0x8000
    ensures ChecksumOk(Dht22Frame(r))
    ensures Scale(Dht22, Dht22Frame(r)) == r
  {
    TemperatureRoundTrip(r.temperature);
  }

  /** A DHT11 reading ignores the decimal bytes 1 and 3. */
  lemma Dht11IgnoresDecimals(data: seq<Byte>, data': seq<Byte>)
    requires |data| == DataBytes && |data'| == DataBytes
    requires data[0] == data'[0] && data[2] == data'[2]
    ensures ScaleAsWritten(Dht11, data) == ScaleAsWritten(Dht11, data')
  {
  }

  /** A DHT11 reports byte 0 as the humidity and byte 2 as the temperature,
      in whole units: any frame reads like the frame the sensor sends for
      those two bytes. */
  lemma Dht11Scale(data: seq<Byte>)
    requires |data| == DataBytes
    ensures ScaleAsWritten(Dht11, data) == Reading(10 * data[0] as int, 10 * data[2] as int)
  {
    Dht11FrameRoundTrip(data[0], data[2]);
    Dht11IgnoresDecimals(data, Dht11Frame(data[0], data[2]));
  }
}

=== FILE: dht_read.dfy ===
/** `dht_read` (lib/DHT11/dht11.c:39-133): argument check, pin
    acquisition, the start signal, the capture under raised priority, and
    the decoding of the frame.

    The outputs `*humidity` and `*temperature` are one `Reading` in tenths,
    `None` while the read has not written them; `humidity` and
    `temperature` below say whether the pointers are non-NULL. The pin
    levels the read sees come from the oracle `level` (see `DhtCapture`).
    What the read does to the outside world is returned as a trace of
    events, from which the final scheduling state and the order of the pin
    operations are recovered independently of the method. */
module DhtDriver {
  import opened Wrappers
  import opened MmioRegisters
  import MmioMap
  import opened DhtCommon
  import opened DhtCapture
  import opened DhtDecode

  /** One externally visible step of a read. */
  datatype Event =
    | AcquirePin(calls: seq<MmioMap.DevCall>)
    | PinOutput
    | PinHigh
    | PinLow
    | PinInput
    | Sleep(ms: nat)
    | BlockWait(ms: nat)
    | Priority(sched: Sched)
    | Samples(count: nat)

  /** The events that write to the pin's registers. */
  predicate IsPinWrite(e: Event) {
    e.PinOutput? || e.PinHigh? || e.PinLow? || e.PinInput?
  }

  /** The pin writes of a trace, in order. */
  function PinWrites(trace: seq<Event>): (writes: seq<Event>)
  {
    if |trace| == 0 then []
    else PinWrites(trace[..|trace| - 1]) + (if IsPinWrite(trace[|trace| - 1]) then [trace[|trace| - 1]] else [])
  }

  /** The scheduling state after a trace, from the state `s` before it: the
      last priority request wins. */
  function Replay(s: Sched, trace: seq<Event>): (last: Sched)
  {
    if |trace| == 0 then s
    else match trace[|trace| - 1]
      case Priority(p) => p
      case _ => Replay(s, trace[..|trace| - 1])
  }

  /** The number of pin readings a trace takes. */
  function SampleCount(trace: seq<Event>): (n: nat)
  {
    if |trace| == 0 then 0
    else SampleCount(trace[..|trace| - 1]) + (match trace[|trace| - 1] case Samples(n) => n case _ => 0)
  }

  /** Whether a trace ever asks for a scheduling change. */
  predicate ChangesPriority(trace: seq<Event>) {
    exists i :: 0 <= i < |trace| && trace[i].Priority?
  }

  /** Appending one event extends each view of the trace by that event. */
  lemma TraceSnoc(s: Sched, trace: seq<Event>, e: Event)
    ensures PinWrites(trace + [e]) == PinWrites(trace) + (if IsPinWrite(e) then [e] else [])
    ensures Replay(s, trace + [e]) == (if e.Priority? then e.sched else Replay(s, trace))
    ensures SampleCount(trace + [e]) == SampleCount(trace) + (if e.Samples? then e.count else 0)
  {
  }

  /** The trace of a read that acquired the pin: the acquisition, the
      start signal under raised priority, `n` readings and the restore. */
  function AcquiredTrace(calls: seq<MmioMap.DevCall>, fifoMax: int, n: nat): (trace: seq<Event>) {
    [AcquirePin(calls)] + ExchangeTrace(fifoMax, n)
  }

  /** The events after the acquisition. */
  function ExchangeTrace(fifoMax: int, n: nat): (events: seq<Event>) {
    [PinOutput, Priority(SetMaxPriority(fifoMax)), PinHigh, Sleep(500),
     PinLow, BlockWait(20), PinInput, Samples(n), Priority(SetDefaultPriority())]
  }

  /** Such a trace drives the pin output, high, low, then input; it ends at
      the default priority whatever the state before; and it takes exactly
      its `n` readings, all after the last pin write. */
  lemma {:induction false} AcquiredTraceViews(calls: seq<MmioMap.DevCall>, fifoMax: int, n: nat, s: Sched)
    ensures var t := AcquiredTrace(calls, fifoMax, n);
            && PinWrites(t) == [PinOutput, PinHigh, PinLow, PinInput]
            && Replay(s, t) == DefaultSched
            && SampleCount(t) == n
            && (forall i, j :: 0 <= i < |t| && 0 <= j < |t| && t[i].Samples? && IsPinWrite(t[j]) ==> j < i)
            && ChangesPriority(t)
  {
    var t0: seq<Event> := [];
    TraceSnoc(s, t0, AcquirePin(calls));
    var t1 := t0 + [AcquirePin(calls)];
    TraceSnoc(s, t1, PinOutput);
    var t2 := t1 + [PinOutput];
    TraceSnoc(s, t2, Priority(SetMaxPriority(fifoMax)));
    var t3 := t2 + [Priority(SetMaxPriority(fifoMax))];
    TraceSnoc(s, t3, PinHigh);
    var t4 := t3 + [PinHigh];
    TraceSnoc(s, t4, Sleep(500));
    var t5 := t4 + [Sleep(500)];
    TraceSnoc(s, t5, PinLow);
    var t6 := t5 + [PinLow];
    TraceSnoc(s, t6, BlockWait(20));
    var t7 := t6 + [BlockWait(20)];
    TraceSnoc(s, t7, PinInput);
    var t8 := t7 + [PinInput];
    TraceSnoc(s, t8, Samples(n));
    var t9 := t8 + [Samples(n)];
    TraceSnoc(s, t9, Priority(SetDefaultPriority()));
    var t10 := t9 + [Priority(SetDefaultPriority())];
    assert t10 == AcquiredTrace(calls, fifoMax, n);
    assert t10[2].Priority?;
  }

  /** What a call returns: the status, the outputs (`None` when they were
      not written, `Some(NoReading)` when they stayed zero), the decoded
      frame (empty when decoding was not reached), the bank cache, the
      register page, the scheduling state and the trace. */
  datatype ReadResult = ReadResult(
    status: Status,
    out: Option<Reading>,
    data: seq<Byte>,
    cache: MmioMap.Cache,
    page: Page,
    sched: Sched,
    trace: seq<Event>)

  /** Whether the pin was acquired: the arguments are accepted and
      `mmio_get_gpio` succeeds. */
  predicate PinAcquired(base: int, num: int, humidity: bool, temperature: bool, cache: MmioMap.Cache, dev: MmioMap.Device) {
    humidity && temperature && MmioMap.GetGpio(cache, base, num, true, dev).status == MmioMap.Success
  }

  /** `dht_read(type, base, num, humidity, temperature)`. `sched` is the
      scheduling state on entry and `fifoMax` what the scheduler reports as
      the largest FIFO priority. */
  method DhtRead(sensor: int, base: int, num: int, humidity: bool, temperature: bool,
                 cache: MmioMap.Cache, dev: MmioMap.Device, page: Page, sched: Sched, fifoMax: int,
                 level: nat -> bool) returns (r: ReadResult)
    // a NULL output is refused before anything else happens
    ensures r.status == ErrArgument <==> !(humidity && temperature)
    ensures r.status == ErrArgument ==>
              r.trace == [] && r.cache == cache && r.page == page && r.sched == sched
    // every failure of `mmio_get_gpio` is a GPIO error, before any pin
    // write or priority change
    ensures r.status == ErrGpio <==>
              humidity && temperature && MmioMap.GetGpio(cache, base, num, true, dev).status != MmioMap.Success
    ensures r.status == ErrGpio ==>
              r.page == page && r.sched == sched && PinWrites(r.trace) == [] && !ChangesPriority(r.trace)
              && r.trace == [AcquirePin(MmioMap.GetGpio(cache, base, num, true, dev).calls)]
    ensures humidity && temperature ==> r.cache == MmioMap.GetGpio(cache, base, num, true, dev).cache
    // the scheduling state is what the trace leaves; once the priority was
    // raised it is back to the default on return
    ensures r.sched == Replay(sched, r.trace)
    ensures PinAcquired(base, num, humidity, temperature, cache, dev) ==>
              Priority(SetMaxPriority(fifoMax)) in r.trace && r.sched == DefaultSched
    // the pin is driven and released in this order, and then only read
    ensures PinAcquired(base, num, humidity, temperature, cache, dev) ==>
              && PinWrites(r.trace) == [PinOutput, PinHigh, PinLow, PinInput]
              && |r.trace| >= 2 && r.trace[|r.trace| - 2].Samples?
              && DrivenAndReleased(page, r.page, num)
    // the whole trace: the acquisition, then the start signal, the capture
    // and the restore in the order of lines 51-95
    ensures PinAcquired(base, num, humidity, temperature, cache, dev) ==>
              r.trace == AcquiredTrace(MmioMap.GetGpio(cache, base, num, true, dev).calls, fifoMax, SampleCount(r.trace))
    // a timeout exactly when the sensor did not transmit a full train
    ensures r.status == ErrTimeout <==>
              PinAcquired(base, num, humidity, temperature, cache, dev)
              && !exists c0, starts, counts :: Transmits(level, c0, starts, counts)
    // and then after exactly the readings the stalled wait allows
    ensures r.status == ErrTimeout ==> TimesOut(level, SampleCount(r.trace))
    // no frame unless decoding was reached
    ensures r.status == ErrArgument || r.status == ErrGpio || r.status == ErrTimeout ==> r.data == []
    // when it did, the frame is the one the train encodes, and the checksum
    // alone decides between success and a checksum error
    ensures forall c0, starts, counts ::
              PinAcquired(base, num, humidity, temperature, cache, dev) && Transmits(level, c0, starts, counts) ==>
              && r.data == Frame(counts)
              && SampleCount(r.trace) == starts[Counters]
              && (r.status == Success <==> ChecksumOk(Frame(counts)))
              && (r.status == ErrChecksum <==> !ChecksumOk(Frame(counts)))
    // the outputs are written exactly when the arguments are accepted: zero
    // on every later error, and scaled from the frame on success (zero again
    // for an unknown sensor type)
    ensures r.status == ErrArgument <==> r.out == None
    ensures r.status != Success && r.status != ErrArgument ==> r.out == Some(NoReading)
    ensures r.status == Success ==>
              |r.data| == DataBytes && ChecksumOk(r.data) && r.out == Some(ScaleAsWritten(sensor, r.data))
    // the reported outputs are the intended ones unless a DHT22 frame has a
    // non-zero high temperature byte
    ensures r.status == Success ==>
              (r.out == Some(Scale(sensor, r.data)) <==> sensor != Dht22 || r.data[2] == 0)
  {
    if !humidity || !temperature {
      return ReadResult(ErrArgument, None, [], cache, page, sched, []);
    }
    var out := NoReading;

    var got := MmioMap.GetGpio(cache, base, num, true, dev);
    var trace := [AcquirePin(got.calls)];
    // line 50 tests the return code for `< 0`, which is exactly a failure
    var failed := got.status.Code() < 0;
    assert failed <==> got.status != MmioMap.Success;
    if failed {
      assert PinWrites(trace) == [] && Replay(sched, trace) == sched by {
        TraceSnoc(sched, [], AcquirePin(got.calls));
        assert [] + [AcquirePin(got.calls)] == trace;
      }
      return ReadResult(ErrGpio, Some(out), [], got.cache, page, sched, trace);
    }
    var status, reading, data, p, sch, events :=
      Exchange(sensor, got.gpio.value, page, fifoMax, level);
    trace := trace + events;
    AcquiredTraceViews(got.calls, fifoMax, events[7].count, sched);
    r := ReadResult(status, Some(reading), data, got.cache, p, sch, trace);
  }

  /** The part of a read after the pin was acquired (lines 51-131): the
      start signal under raised priority, the capture, the restore of the
      default priority, and the decoding. `events` are the trace after the
      acquisition. */
  method Exchange(sensor: int, pin: Gpio, page: Page, fifoMax: int, level: nat -> bool)
    returns (status: Status, out: Reading, data: seq<Byte>, page': Page, sched: Sched, events: seq<Event>)
    ensures |events| == 9 && events[7].Samples?
    ensures events == ExchangeTrace(fifoMax, events[7].count)
    ensures sched == DefaultSched
    ensures DrivenAndReleased(page, page', pin.num)
    ensures status == Success || status == ErrChecksum || status == ErrTimeout
    ensures status == ErrTimeout <==> !exists c0, starts, counts :: Transmits(level, c0, starts, counts)
    ensures status == ErrTimeout ==> TimesOut(level, events[7].count) && data == []
    ensures forall c0, starts, counts :: Transmits(level, c0, starts, counts) ==>
              && data == Frame(counts)
              && events[7].count == starts[Counters]
              && (status == Success <==> ChecksumOk(Frame(counts)))
    ensures status != Success ==> out == NoReading
    ensures status == Success ==>
              |data| == DataBytes && ChecksumOk(data) && out == ScaleAsWritten(sensor, data)
  {
    out := NoReading;
    data := [];
    var p := SetOutput(page, pin);
    events := [PinOutput];
    sched := SetMaxPriority(fifoMax);
    events := events + [Priority(sched)];

    p := SetHigh(p, pin);
    events := events + [PinHigh];
    events := events + [Sleep(500)];
    p := SetLow(p, pin);
    events := events + [PinLow];
    events := events + [BlockWait(20)];

    p := SetInput(p, pin);
    events := events + [PinInput];
    page' := p;

    var acq := Acquire(level);
    events := events + [Samples(acq.taken)];
    sched := SetDefaultPriority();
    events := events + [Priority(sched)];

    if acq.AcquireTimeout? {
      status := ErrTimeout;
      return;
    }
    status, out, data := DecodeCounts(sensor, acq.counts);
  }

  /** The direction of pin `num` is input, and no other pin's direction
      changed. */
  ghost predicate ReleasedAsInput(page: Page, page': Page, num: int) {
    0 <= num < WordBits
    && page'[OeWord][num]
    && (forall j :: 0 <= j < WordBits && j != num ==> page'[OeWord][j] == page[OeWord][j])
  }

  /** The page after the start signal (lines 51-64): the pin's direction
      released as input, the set and clear registers each holding the pin's
      one-hot mask, and every other word as it was. */
  ghost predicate DrivenAndReleased(page: Page, page': Page, num: int) {
    && ReleasedAsInput(page, page', num)
    && page'[SetWord] == ShiftedOne(num)
    && page'[ClrWord] == ShiftedOne(num)
    && forall w :: 0 <= w < PageWords && w != OeWord && w != SetWord && w != ClrWord ==> page'[w] == page[w]
  }

  /** Lines 97-131: threshold, packing, checksum and scaling of a complete
      capture. The outputs stay zero unless the checksum holds. */
  method DecodeCounts(sensor: int, counts: seq<nat>) returns (status: Status, out: Reading, data: seq<Byte>)
    requires |counts| == Counters && Below(counts)
    ensures data == Frame(counts)
    ensures status == Success || status == ErrChecksum
    ensures status == Success <==> ChecksumOk(data)
    ensures status == Success ==> out == ScaleAsWritten(sensor, data)
    ensures status != Success ==> out == NoReading
  {
    out := NoReading;
    var th := ComputeThreshold(counts);
    data := PackCounters(counts, th);
    if data[4] == (data[0] as int + data[1] + data[2] + data[3]) % 256 {
      if sensor == Dht11 {
        out := Reading(data[0] as int * 10, data[2] as int * 10);
      } else if sensor == Dht22 {
        out := Reading(Dht22Humidity(data[0], data[1]), Dht22TemperatureAsWritten(data[2], data[3]));
      }
      status := Success;
    } else {
      status := ErrChecksum;
    }
  }
}

=== FILE: mmio_map.dfy ===
/** Lazy mapping of GPIO banks into the process, with a process-wide cache of
    one mapping per bank (lib/MMIO/mmio.c).

    The cache is the array `gpio_base[4]`; a NULL entry is `None`. Opening
    the physical-memory device and mapping a page are foreign calls: their
    outcomes are an input (`Device`), and the calls the operation issues are
    returned in order so that "no device access" can be stated. */
module MmioMap {
  import opened Wrappers
  import opened MmioRegisters

  const NumBanks: nat := 4
  /** Length of every mapping request, in bytes. */
  const GpioLen: nat := 4096
  /** Physical base address of the register page of each bank. */
  const GpioAddr: seq<nat> := [0x44E0_7000, 0x4804_C000, 0x481A_C000, 0x481A_F000]

  /** The address of a mapping. The kernel never hands out page 0 for a
      shared mapping without a hint, so an address is never NULL. */
  type Addr = a: nat | a != 0 witness 1

  /** `gpio_base`: the mapped address of each bank, if any. */
  type Cache = c: seq<Option<Addr>> | |c| == 4 witness [None, None, None, None]

  /** The return codes of `mmio_get_gpio`. */
  datatype Status = Success | ErrArg | ErrDevMem | ErrMmap {
    function Code(): (c: int)
      ensures -3 <= c <= 0
      ensures c < 0 <==> !Success?
    {
      match this
      case Success => 0
      case ErrArg => -1
      case ErrDevMem => -2
      case ErrMmap => -3
    }
  }

  /** Different outcomes have different codes, so a caller can tell them
      apart from the integer alone. */
  lemma StatusCodesDistinct(s: Status, t: Status)
    ensures s.Code() == t.Code() ==> s == t
  {
  }

  /** What the operating system would answer: whether opening the device
      succeeds, and what `mmap` returns (`None` is `MAP_FAILED`). */
  datatype Device = Device(openOk: bool, mapping: Option<Addr>)

  /** A foreign call issued by the operation. */
  datatype DevCall = Open | Mmap(phys: nat, length: nat)

  /** The outcome of one call: the return code, the pin handle written
      through the `gpio` pointer (only on success), the cache afterwards and
      the foreign calls issued. */
  datatype GetResult = GetResult(status: Status, gpio: Option<Gpio>, cache: Cache, calls: seq<DevCall>)

  predicate ValidArgs(hasDest: bool, base: int, num: int) {
    hasDest && 0 <= base < NumBanks && 0 <= num < 32
  }

  /** `mmio_get_gpio(base, num, gpio)`; `hasDest` is `gpio != NULL`. */
  function GetGpio(cache: Cache, base: int, num: int, hasDest: bool, dev: Device): (r: GetResult)
    // argument errors: no device access, nothing written, cache unchanged
    ensures r.status == ErrArg <==> !ValidArgs(hasDest, base, num)
    ensures r.status == ErrArg ==> r.cache == cache && r.calls == [] && r.gpio == None
    // a cached bank is served without any device access
    ensures ValidArgs(hasDest, base, num) && cache[base].Some? ==>
              r.status == Success && r.cache == cache && r.calls == []
    // the device is opened exactly when the bank is not cached
    ensures ValidArgs(hasDest, base, num) && cache[base].None? ==> |r.calls| >= 1 && r.calls[0] == Open
    ensures r.status == ErrDevMem <==> ValidArgs(hasDest, base, num) && cache[base].None? && !dev.openOk
    ensures r.status == ErrDevMem ==> r.calls == [Open]
    ensures r.status == ErrMmap <==>
              ValidArgs(hasDest, base, num) && cache[base].None? && dev.openOk && dev.mapping.None?
    // an uncached bank with the device open is mapped, and the slot takes
    // exactly what `mmap` returned
    ensures ValidArgs(hasDest, base, num) && cache[base].None? && dev.openOk ==>
              r.calls == [Open, Mmap(GpioAddr[base], GpioLen)] && r.cache[base] == dev.mapping
    // failures leave the slot empty and write nothing
    ensures r.status != Success ==> r.cache == cache && r.gpio == None
    // every mapping request asks for this bank's page, 4096 bytes long
    ensures forall i :: 0 <= i < |r.calls| && r.calls[i].Mmap? ==>
              r.calls[i] == Mmap(GpioAddr[base], GpioLen)
    // success hands out the cached mapping and the requested pin
    ensures r.status == Success ==>
              r.cache[base].Some? && r.gpio == Some(Gpio(r.cache[base].value, num))
    // only slot `base` can change, and a filled slot stays as it was
    ensures forall b :: 0 <= b < NumBanks && b != base ==> r.cache[b] == cache[b]
    ensures forall b :: 0 <= b < NumBanks && cache[b].Some? ==> r.cache[b] == cache[b]
  {
    if !hasDest || base < 0 || base > 3 || num < 0 || num > 31 then
      GetResult(ErrArg, None, cache, [])
    else if cache[base].Some? then
      GetResult(Success, Some(Gpio(cache[base].value, num)), cache, [])
    else if !dev.openOk then
      GetResult(ErrDevMem, None, cache, [Open])
    else
      var calls := [Open, Mmap(GpioAddr[base], GpioLen)];
      match dev.mapping
      case None => GetResult(ErrMmap, None, cache, calls)
      case Some(addr) =>
        var cache' := cache[base := Some(addr)];
        GetResult(Success, Some(Gpio(addr, num)), cache', calls)
  }

  /** Once a call has succeeded, repeating it, whatever the device would
      answer, succeeds with the same pin, changes nothing and touches no
      device. */
  lemma GetGpioIdempotent(cache: Cache, base: int, num: int, dev: Device, dev': Device)
    requires GetGpio(cache, base, num, true, dev).status == Success
    ensures var r := GetGpio(cache, base, num, true, dev);
            var r' := GetGpio(r.cache, base, num, true, dev');
            r'.status == Success && r'.gpio == r.gpio && r'.cache == r.cache && r'.calls == []
  {
  }

  /** A failed mapping leaves the bank uncached, so a later call retries
      and succeeds when the device cooperates. */
  lemma GetGpioRetriesAfterFailure(cache: Cache, base: int, num: int, dev: Device, addr: Addr)
    requires GetGpio(cache, base, num, true, dev).status in {ErrDevMem, ErrMmap}
    ensures var r := GetGpio(cache, base, num, true, dev);
            var r' := GetGpio(r.cache, base, num, true, Device(true, Some(addr)));
            r'.status == Success && r'.gpio == Some(Gpio(addr, num))
            && r'.calls == [Open, Mmap(GpioAddr[base], GpioLen)]
  {
  }

  /** Pins of one bank share one mapping: two successful calls for the same
      bank hand out the same base address. */
  lemma GetGpioSharesMapping(cache: Cache, base: int, num: int, num': int, dev: Device, dev': Device)
    requires GetGpio(cache, base, num, true, dev).status == Success
    requires 0 <= num' < 32
    ensures var r := GetGpio(cache, base, num, true, dev);
            var r' := GetGpio(r.cache, base, num', true, dev');
            r'.status == Success && r'.gpio.value.base == r.gpio.value.base && r'.gpio.value.num == num'
  {
  }
}

=== FILE: mmio_registers.dfy ===
/** The GPIO register page of one bank and the single-bit operations of the
    register access layer (lib/MMIO/mmio.h).

    A bank's 4096-byte page is modelled as plain storage: a sequence of 1024
    32-bit words, indexed by `offset / 4` exactly as the source indexes its
    `volatile uint32_t *` base. A 32-bit word is represented by its 32 bits,
    `w[j]` being the bit of weight 2^j, and the C operators `|`, `&`, `^` and
    `1 << n` used by the source are defined bitwise on that representation.
    What the hardware does with a write to the set/clear registers is not
    part of the model. */
module MmioRegisters {

  /** Size of the mapped register window of one bank, in bytes. */
  const PageBytes: nat := 4096
  /** The same window in 32-bit words. */
  const PageWords: nat := PageBytes / 4
  const WordBits: nat := 32

  /** Register offsets inside the page, in bytes. */
  const OeOffset: nat := 0x134
  const DataInOffset: nat := 0x138
  const DataOutOffset: nat := 0x13C
  const ClrDataOutOffset: nat := 0x190
  const SetDataOutOffset: nat := 0x194

  const RegisterOffsets: set<nat> :=
    {OeOffset, DataInOffset, DataOutOffset, ClrDataOutOffset, SetDataOutOffset}

  /** Word index of each register, as the source computes it. */
  const OeWord: nat := OeOffset / 4
  const DataInWord: nat := DataInOffset / 4
  const ClrWord: nat := ClrDataOutOffset / 4
  const SetWord: nat := SetDataOutOffset / 4

  /** A pin index within a bank. The source shifts the signed constant 1 by
      the pin number, which is only defined below 31; here the shift is a
      32-bit unsigned shift for every pin 0..31. */
  type PinNum = n: nat | n < 32

  /** A 32-bit register value, as its bits; `w[j]` has weight 2^j. */
  type Word = w: seq<bool> | |w| == 32 witness seq(32, (_: int) => false)

  type Page = p: seq<Word> | |p| == 1024 witness seq(1024, (_: int) => seq(32, (_: int) => false))

  /** A pin handle: the address of the mapped page of its bank and the pin
      number within the bank. */
  datatype Gpio = Gpio(base: nat, num: PinNum)

  /** 0xFFFFFFFF. */
  function AllOnes(): (w: Word) {
    seq(32, (_: int) => true)
  }

  function Or(a: Word, b: Word): (w: Word) {
    seq(32, j requires 0 <= j < 32 => a[j] || b[j])
  }

  function And(a: Word, b: Word): (w: Word) {
    seq(32, j requires 0 <= j < 32 => a[j] && b[j])
  }

  function Xor(a: Word, b: Word): (w: Word) {
    seq(32, j requires 0 <= j < 32 => a[j] != b[j])
  }

  /** `1 << n` as a 32-bit word: the word whose only set bit is bit `n`. */
  function ShiftedOne(n: PinNum): (r: Word)
    ensures r[n] && forall j :: 0 <= j < WordBits && j != n ==> !r[j]
  {
    seq(32, j => j == n)
  }

  /** The numeric value of a word. */
  function Value(w: seq<bool>): (v: nat)
    decreases |w|
  {
    if |w| == 0 then 0 else (if w[0] then 1 else 0) + 2 * Value(w[1..])
  }

  function Pow2(n: nat): (r: nat)
    ensures r >= 1
  {
    if n == 0 then 1 else 2 * Pow2(n - 1)
  }

  /** A word is zero exactly when no bit is set. */
  lemma {:induction false} ValueZero(w: seq<bool>)
    ensures Value(w) == 0 <==> forall j :: 0 <= j < |w| ==> !w[j]
    decreases |w|
  {
    if |w| > 0 {
      ValueZero(w[1..]);
      assert forall j :: 1 <= j < |w| ==> w[j] == w[1..][j - 1];
    }
  }

  /** A word with the single bit `n` set has the value 2^n: the shift the
      source writes is the number it means. */
  lemma {:induction false} ValueOfSingleBit(w: seq<bool>, n: nat)
    requires n < |w|
    requires w[n] && forall j :: 0 <= j < |w| && j != n ==> !w[j]
    ensures Value(w) == Pow2(n)
    decreases n
  {
    if n == 0 {
      ValueZero(w[1..]);
    } else {
      assert !w[0];
      ValueOfSingleBit(w[1..], n - 1);
    }
  }

  /** Every register the layer touches sits on a 4-byte boundary inside the
      mapped page. */
  lemma RegisterOffsetsInPage()
    ensures forall off :: off in RegisterOffsets ==> off % 4 == 0 && off / 4 < PageWords
    ensures OeWord == 77 && DataInWord == 78 && ClrWord == 100 && SetWord == 101
  {
  }

  /** Puts pin `g.num` in input mode: sets its bit in the output-enable
      register (a set bit disables the output driver). */
  function SetInput(page: Page, g: Gpio): (r: Page)
    ensures r[OeWord][g.num]
    ensures forall j :: 0 <= j < WordBits && j != g.num ==> r[OeWord][j] == page[OeWord][j]
    ensures forall w :: 0 <= w < PageWords && w != OeWord ==> r[w] == page[w]
  {
    page[OeWord := Or(page[OeWord], ShiftedOne(g.num))]
  }

  /** Puts pin `g.num` in output mode: clears its bit in the output-enable
      register. */
  function SetOutput(page: Page, g: Gpio): (r: Page)
    ensures !r[OeWord][g.num]
    ensures forall j :: 0 <= j < WordBits && j != g.num ==> r[OeWord][j] == page[OeWord][j]
    ensures forall w :: 0 <= w < PageWords && w != OeWord ==> r[w] == page[w]
  {
    page[OeWord := And(page[OeWord], Xor(AllOnes(), ShiftedOne(g.num)))]
  }

  /** Drives pin `g.num` low: stores the one-hot mask of the pin in the
      clear-output register (a plain store, no read-modify-write). */
  function SetLow(page: Page, g: Gpio): (r: Page)
    ensures forall j :: 0 <= j < WordBits ==> (r[ClrWord][j] <==> j == g.num)
    ensures Value(r[ClrWord]) == Pow2(g.num)
    ensures forall w :: 0 <= w < PageWords && w != ClrWord ==> r[w] == page[w]
  {
    var r := page[ClrWord := ShiftedOne(g.num)];
    ValueOfSingleBit(r[ClrWord], g.num);
    r
  }

  /** Drives pin `g.num` high: stores the one-hot mask of the pin in the
      set-output register. */
  function SetHigh(page: Page, g: Gpio): (r: Page)
    ensures forall j :: 0 <= j < WordBits ==> (r[SetWord][j] <==> j == g.num)
    ensures Value(r[SetWord]) == Pow2(g.num)
    ensures forall w :: 0 <= w < PageWords && w != SetWord ==> r[w] == page[w]
  {
    var r := page[SetWord := ShiftedOne(g.num)];
    ValueOfSingleBit(r[SetWord], g.num);
    r
  }

  /** Level 0 drives the pin low, any other level drives it high. */
  function SetLevel(page: Page, g: Gpio, lvl: int): (r: Page)
    ensures lvl == 0 ==> forall j :: 0 <= j < WordBits ==> (r[ClrWord][j] <==> j == g.num)
    ensures lvl != 0 ==> forall j :: 0 <= j < WordBits ==> (r[SetWord][j] <==> j == g.num)
    ensures forall w :: 0 <= w < PageWords && w != (if lvl == 0 then ClrWord else SetWord) ==> r[w] == page[w]
  {
    if lvl == 0 then SetLow(page, g) else SetHigh(page, g)
  }

  /** Reads pin `g.num` from the data-input register. The result is the
      masked word, not a boolean: non-zero exactly when the pin's bit is set,
      and then equal to 2^num. */
  function Input(page: Page, g: Gpio): (r: Word)
    ensures Value(r) != 0 <==> page[DataInWord][g.num]
    ensures Value(r) != 0 ==> Value(r) == Pow2(g.num)
    ensures forall j :: 0 <= j < WordBits && j != g.num ==> !r[j]
  {
    var r := And(page[DataInWord], ShiftedOne(g.num));
    ValueZero(r);
    if r[g.num] then ValueOfSingleBit(r, g.num); r else r
  }

  /** Two pages are equal when they agree on the output-enable word and on
      every other word. */
  lemma SameDirectionPage(p: Page, q: Page)
    requires forall j :: 0 <= j < WordBits ==> p[OeWord][j] == q[OeWord][j]
    requires forall w :: 0 <= w < PageWords && w != OeWord ==> p[w] == q[w]
    ensures p == q
  {
    assert p[OeWord] == q[OeWord];
    assert forall w :: 0 <= w < PageWords ==> p[w] == q[w];
  }

  /** Both direction writes are idempotent. */
  lemma DirectionIdempotent(page: Page, g: Gpio)
    ensures SetInput(SetInput(page, g), g) == SetInput(page, g)
    ensures SetOutput(SetOutput(page, g), g) == SetOutput(page, g)
  {
    SameDirectionPage(SetInput(SetInput(page, g), g), SetInput(page, g));
    SameDirectionPage(SetOutput(SetOutput(page, g), g), SetOutput(page, g));
  }

  /** Of two direction writes to the same pin, the later one decides the
      whole page: the earlier one leaves no trace. */
  lemma DirectionLastWins(page: Page, g: Gpio)
    ensures SetOutput(SetInput(page, g), g) == SetOutput(page, g)
    ensures SetInput(SetOutput(page, g), g) == SetInput(page, g)
  {
    SameDirectionPage(SetOutput(SetInput(page, g), g), SetOutput(page, g));
    SameDirectionPage(SetInput(SetOutput(page, g), g), SetInput(page, g));
  }

  /** Direction writes to different pins commute. */
  lemma DirectionCommutes(page: Page, g: Gpio, h: Gpio)
    requires g.num != h.num
    ensures SetInput(SetOutput(page, g), h) == SetOutput(SetInput(page, h), g)
    ensures SetInput(SetInput(page, g), h) == SetInput(SetInput(page, h), g)
    ensures SetOutput(SetOutput(page, g), h) == SetOutput(SetOutput(page, h), g)
  {
    SameDirectionPage(SetInput(SetOutput(page, g), h), SetOutput(SetInput(page, h), g));
    SameDirectionPage(SetInput(SetInput(page, g), h), SetInput(SetInput(page, h), g));
    SameDirectionPage(SetOutput(SetOutput(page, g), h), SetOutput(SetOutput(page, h), g));
  }

  /** The level selects the register, and repeating a level write changes
      nothing. */
  lemma SetLevelMatchesLowHigh(page: Page, g: Gpio, lvl: int)
    ensures SetLevel(page, g, lvl) == (if lvl == 0 then SetLow(page, g) else SetHigh(page, g))
    ensures SetLevel(SetLevel(page, g, lvl), g, lvl) == SetLevel(page, g, lvl)
  {
  }
}

=== FILE: wrappers.dfy ===
/** An optional value, standing for a C pointer that may be NULL or an
    output that was not written. */
module Wrappers {

  datatype Option<+T> = None | Some(value: T)

}
